=== FILE: README.md ===
# F1TENTH lab algorithms in Dafny

The F1TENTH course slides animate two reactive driving algorithms. This
project models their computational parts and proves properties of them:

- **Wall following with a PID controller** (`labs/lab1/lab1.py`). This
  covers the `PID` dataclass and its `update` and `reset` methods. It also
  covers the per-frame `follow_path` updater, which feeds the car's offset
  from a line to the controller, turns the heading by the clamped output,
  and ramps the speed up and then down.
- **Follow the gap** (`labs/lab2/lab2.py`). This covers:
  - the obstacle test `get_is_in`: circles, ellipses and rectangles, each
    optionally inverted as negative space;
  - the range measurement of `update_rays`: a march along each ray, then
    bisection at the first point outside the track;
  - the disparity extender;
  - the car update of `update_car`: velocity ramp, choice of the longest
    ray, and a clipped proportional turn toward it.

Everything is a pure function over immutable values. The state held by the
animation engine's trackers and closures is passed in and returned instead:
the controller, the heading and speed, the ray lengths, and the car's
velocity and angle. Ranges and angles are Dafny `real`. π is a parameter
`pi` with the precondition `pi > 0`.

Modules, one per component:

| module | file | models |
|---|---|---|
| `Common` | common.dfy | `Optional`, `abs`, `min`, `max`, `int()` truncation, `np.clip` |
| `Pid` | pid.dfy | `PID.update`, `PID.reset`, sequences of updates |
| `FollowPath` | follow_path.dfy | the `follow_path` updater and its speed ramp |
| `Obstacles` | obstacles.dfy | `ObstacleType`, `get_is_in` |
| `RayMarch` | ray_march.dfy | the march and bisection of `update_rays` |
| `DisparityExtender` | disparity.dfy | the disparity extension of `update_rays` |
| `CarUpdate` | car.dfy | `update_car` |

Points where the code's exact behaviour matters:

- The bubble count is `int(...)`, which truncates toward zero
  (lab2.py:100-104, 109-113).
- `update` accumulates the integral as `error · dt`, and the I term is
  `ki · integral`. With the gains of lab1.py:76 and two updates at
  measurement 1 and `dt` 1, the integral is −1 and then −2. The I term is
  −0.1 and then −0.2.
- The left run of the disparity extender is a Python slice. A negative start
  wraps around instead of being clipped at index 0 (see Findings).
- Nothing validates `threshold`, `bubble_size` or the scan length. A zero
  near range makes the bubble quotient infinite, or NaN when `bubble_size`
  is 0 too, and `int()` raises on it. The model returns `None` there.
  `max` of an empty scan raises as well. That case is not modelled (see
  Left out).

Python's `dt and dt > 0.0` is the predicate `Pid.TimePassed` on
`Option<real>`. It treats `None`, `0.0` and negative values alike as "no
time passed". The two clamps in `update` are applied in sequence, low bound
first, so the high bound wins when the limits cross. `get_is_in` tests
`type(obstacle) is Circle` (and likewise for the other shapes), an exact type
test. So a subclass such as `Square` falls into `Obstacles.Other`, which never
contains a point.

## Model

| member | source | states |
|---|---|---|
| `Pid.Clamp` | labs/lab1/lab1.py:34-38 | a present high bound is never exceeded; a present low bound is respected unless it lies above the high bound; a value within the bounds is returned unchanged; a value above the high bound is returned as the high bound, and one below the low bound as the low bound; with crossed limits the output is always the high bound |
| `Pid.Derivative` | labs/lab1/lab1.py:28-32 | zero when no time passed or no previous error exists; otherwise the derivative times `dt` is the change of the error |
| `Pid.Update` | labs/lab1/lab1.py:22-40 | configuration unchanged; P term is `kp·(setpoint − measurement)`; the integral grows by exactly `error·dt` when time passed and is unchanged otherwise; I term is `ki` times the new integral; D term zero on cold start or without time, else `d·dt = kd·(error − previous error)`; output obeys the limits, equals the raw sum `p + i + d` when that is within them, and saturates at the violated bound otherwise (the high bound when the limits cross); the raw error, not the clamped output, becomes the previous error |
| `Pid.UpdateWithoutTime` | labs/lab1/lab1.py:25-33 | without time the integral stays put, D is zero and the output is the clamped `kp·error + ki·integral` |
| `Pid.Reset` | labs/lab1/lab1.py:18-20 | gains, setpoint and limits kept; integral 0 and no previous error; the result equals a freshly constructed controller with the same configuration |
| `Pid.Run` | labs/lab1/lab1.py:22-40 | a sequence of updates returns one tuple per call and never changes the configuration |
| `Pid.FirstDerivativeIsZero` | labs/lab1/lab1.py:16-32 | the first update after construction or after `reset` has a zero D term |
| `Pid.DerivativeTracksErrorChange` | labs/lab1/lab1.py:28-39 | across two consecutive updates, the second D term times `dt` is `kd` times the change of the raw error between the calls |
| `Pid.ReplayAfterReset` | labs/lab1/lab1.py:8-20 | replaying any samples after `reset` gives exactly the tuples of a fresh controller with the same configuration |
| `Pid.FrozenWithoutTime` | labs/lab1/lab1.py:25-40 | over any run in which no time passes, the integral is frozen, every D term is zero and every output is the clamped `kp·error + ki·integral` |
| `Pid.WorkedExample` | labs/lab1/lab1.py:25-40 | with the gains of line 76 (kp 2, ki 0.1, kd 2, limits ±2) and measurement 1 at dt 1 twice: integral −1 then −2, I term −0.1 then −0.2, D term 0, raw outputs −2.1 and −2.2, both returned as −2 |
| `Pid.DefaultLimitsSaturate` | labs/lab1/lab1.py:14-38 | with the default limits (−1, 1) a unit proportional controller returns 1 for error 5, −1 for error −5 and 0.5 for error 0.5 |
| `FollowPath.SpeedRamp` | labs/lab1/lab1.py:107-110 | before the line's end the speed is `speed + acceleration·dt` capped at the maximum, and after it `speed − acceleration·dt` floored at 0; a speed in `[0, max]` stays there when `acceleration·dt ≥ 0`; accelerating never lowers the speed below its clipped old value, and braking never raises it |
| `FollowPath.Step` | labs/lab1/lab1.py:95-112 | a frame without time passing changes nothing; otherwise the offset from the line is the controller's measurement, the controller keeps the state its update returns, the heading turns by the clamped output times `dt`, the speed follows the ramp and stays in `[0, max]`, and the updater detaches exactly when the car is past the end and stopped |
| `FollowPath.TurnWithinLimits` | labs/lab1/lab1.py:101-104 | the heading change of a frame, the clamped output times a positive `dt`, is at most `high·dt`, and at least `low·dt` when the limits are ordered |
| `FollowPath.Lab1RampExample` | labs/lab1/lab1.py:97-112 | on the lab track at half-second frames the speed goes 0 → 1 → 1.5 (capped) before the end at x = 5 and 1.5 → 0.5 past it; past the end a frame that leaves speed 0.5 keeps the updater and the frame that brings it to 0 detaches it |
| `Obstacles.Contains` | labs/lab2/lab2.py:22-45 | a circle of non-negative radius and an ellipse with non-zero axes contain their centre; a negative radius, a zero-axis ellipse and a shape of unknown type contain nothing; a rectangle contains a point only when its corners are ordered |
| `Obstacles.IsIn` | labs/lab2/lab2.py:20-51 | true exactly when some obstacle's containment test differs from its NEGATIVE_SPACE tag; false for no obstacles |
| `Obstacles.NormTest` | labs/lab2/lab2.py:24-28 | for the true distance `n ≥ 0`, `n ≤ radius` holds exactly when the squared-distance circle test holds |
| `Obstacles.BoundaryIncluded` | labs/lab2/lab2.py:23-45 | the boundary counts as inside: the point at exactly the radius to the right of a circle's centre, the end of an ellipse's horizontal semi-axis, and a rectangle's upper-left and lower-right corners are contained |
| `Obstacles.OrderIndependent` | labs/lab2/lab2.py:20-51 | reordering the obstacles does not change the verdict |
| `Obstacles.Concatenation` | labs/lab2/lab2.py:20-51 | listing two groups of obstacles together gives the disjunction of their verdicts |
| `Obstacles.UnknownNegativeCoversAll` | labs/lab2/lab2.py:21-50 | a shape of unknown type tagged NEGATIVE_SPACE makes every point "in" |
| `RayMarch.FirstOutside` | labs/lab2/lab2.py:79-82 | returns the first march point `k·dx < max length` that is outside, all earlier ones being inside, or none when no march point is outside |
| `RayMarch.Bisect` | labs/lab2/lab2.py:83-90 | the bracket stays within the initial one, its width is the initial width over `2^iterations`, the high end stays outside and the low end stays inside whenever they start so |
| `RayMarch.CastRay` | labs/lab2/lab2.py:79-93 | no hit exactly when no march point below the maximum length is outside; otherwise the hit's step is the first outside one, the final endpoint lies in `[t − dx, t]` and is outside, the bracket width is `dx / 2^iterations`, and the low end is inside whenever the hit is not at the first step |
| `RayMarch.RayLength` | labs/lab2/lab2.py:91-93 | without a hit the ray keeps its length; with one the length is the distance to the refined endpoint |
| `RayMarch.UpdateRays` | labs/lab2/lab2.py:74-93 | one length per ray; a ray with no outside march point keeps its length; otherwise the length is the non-negative distance `abs(high)` to an outside endpoint |
| `RayMarch.DefaultPrecision` | labs/lab2/lab2.py:61-91 | with the defaults (length 20, step 0.1, 10 rounds) a hit is bracketed to width 0.1/1024 |
| `DisparityExtender.DisparitiesFrom` | labs/lab2/lab2.py:97 | lists, in increasing order, exactly the disparity indices from the given start |
| `DisparityExtender.Disparities` | labs/lab2/lab2.py:97 | lists, in increasing order, exactly the indices `d ≤ N − 2` with `abs(r[d+1] − r[d]) > threshold` |
| `DisparityExtender.SliceIndex` | labs/lab2/lab2.py:114 | a slice bound in `[0, N]` is kept, one above `N` becomes `N`, and a negative one counts from the end and is clipped at 0 |
| `DisparityExtender.AssignSlice` | labs/lab2/lab2.py:105-116 | `a[i:j] = v` keeps the length, sets exactly the indices from the normalised start up to the normalised end to `v`, and leaves every other entry as it was |
| `DisparityExtender.BubbleCount` | labs/lab2/lab2.py:100-104 | for a positive near range and a non-negative bubble size the count `b` is non-negative, the arc `b·near·π/N` fits in the bubble and `b + 1` samples no longer fit |
| `Common.Trunc` | labs/lab2/lab2.py:109-113 | `int()` truncates toward zero: the result lies within 1 of the argument, on the side of 0 |
| `DisparityExtender.Near` | labs/lab2/lab2.py:99 | the near range is one of the two ranges of the pair `d`, `d + 1` and no larger than either |
| `DisparityExtender.ExtendAt` | labs/lab2/lab2.py:98-116 | one iteration fails exactly when the near range is zero; otherwise the length is kept and each entry is either unchanged or the near range |
| `DisparityExtender.ExtendRightOfNear` | labs/lab2/lab2.py:99-107 | with the near range on the left, indices `d+1 .. d+b+1` (clipped to the scan) take the near range, nothing else changes, and `r[d+1] = r[d]` afterwards |
| `DisparityExtender.ExtendLeftOfNear` | labs/lab2/lab2.py:108-116 | with the near range on the right and `b ≤ d`, indices `d−b .. d` take the near range, nothing else changes, and `r[d] = r[d+1]` afterwards |
| `DisparityExtender.LeftRunWrapsAway` | labs/lab2/lab2.py:108-116 | with the near range on the right and `d < b < N`, the slice start wraps past `d` and the scan is returned unchanged |
| `DisparityExtender.LeftRunShortened` | labs/lab2/lab2.py:108-116 | with the near range on the right and `b ≥ N`, the slice start wraps to `d − b + N` (or is clipped to 0 once `b > N + d`), only that start `.. d` takes the near range, nothing else changes, and `r[d] = r[d+1]` afterwards |
| `DisparityExtender.ExtendAtClipped` | labs/lab2/lab2.py:108-116 | the corrected iteration has the same failure and value guarantees, and it always closes the disparity (`r[d] = r[d+1]`) for a positive near range and a non-negative bubble size |
| `DisparityExtender.ClippedLeftRun` | labs/lab2/lab2.py:108-116 | in the corrected iteration with the near range on the right, for any bubble count, exactly `max(0, d − b) .. d` takes the near range and every other entry is unchanged |
| `DisparityExtender.ExtendAll` | labs/lab2/lab2.py:98-116 | the loop over the precomputed indices keeps the length, writes only values already in the scan, cannot fail on a scan without zeros, and changes nothing when there is no index |
| `DisparityExtender.ExtendDisparities` | labs/lab2/lab2.py:95-116 | the extended scan has the same length and only ranges of the original scan, so the farthest range never grows; it fails only when the scan has a zero range; a scan without disparities comes back unchanged |
| `DisparityExtender.ExtendDisparitiesClipped` | labs/lab2/lab2.py:95-116 | the corrected extender keeps the same length, value and failure guarantees |
| `DisparityExtender.BubbleCountZero` | labs/lab2/lab2.py:100-104 | when `bubble_size·N < near·π` the count truncates to 0 |
| `DisparityExtender.PlateauExample` | labs/lab2/lab2.py:95-116 | for `[5,5,5,1,1,5,5,5]` with threshold 2 and bubble size 0.3, the disparities are 2 and 4, the result is `[5,5,1,1,1,1,5,5]`, and the maximum survives only on the outer plateaus |
| `DisparityExtender.LeftEdgeExample` | labs/lab2/lab2.py:108-116 | for `[5,5,1,1]` with a two-sample bubble, the as-written extender returns the scan unchanged and the clipped one returns `[1,1,1,1]` |
| `CarUpdate.FarthestRay` | labs/lab2/lab2.py:140 | the chosen ray is a longest one and the first of the longest in list order |
| `CarUpdate.FirstMaxUnique` | labs/lab2/lab2.py:140 | at most one index is the first longest one, so the choice is determined |
| `CarUpdate.AllEqualPicksFirst` | labs/lab2/lab2.py:140 | a scan of equal lengths steers toward the first ray |
| `Common.Clip` | labs/lab2/lab2.py:146-148 | with ordered bounds the result lies within them, equals the input when the input already does, and is the violated bound otherwise; an input above the upper bound and any input under crossed bounds give the upper bound |
| `CarUpdate.Rotation` | labs/lab2/lab2.py:146-148 | for `dt ≥ 0` the turn is within `±2·dt`, equals `0.1·(target − angle)` when that fits, is exactly `2·dt` or `−2·dt` when the proportional step exceeds the rate on that side, turns toward the target and never past it; for `dt < 0` it is `2·dt` |
| `CarUpdate.Accelerate` | labs/lab2/lab2.py:137-138 | the velocity grows by exactly `dt` while below 1 and is frozen from 1 on, so it never decreases for `dt ≥ 0` and overshoots 1 by less than one `dt` |
| `CarUpdate.Step` | labs/lab2/lab2.py:135-150 | the velocity follows the ramp; the angle turns by the clipped proportional step toward the first longest ray; for `dt ≥ 0` the angle changes by at most `2·dt` and does not move away from the angle of the first longest ray |

## Findings

| source | as written | input that shows it | evidently intended | confidence | as-written member | corrected member |
|---|---|---|---|---|---|---|
| labs/lab2/lab2.py:114 | when the near range is on the right, the slice `[d − b : d + 1]` with `d < b < N` has a negative start. Python wraps it to `d − b + N`, which is past `d`, so the slice is empty and nothing is written. With `N ≤ b ≤ N + d` the start wraps to `d − b + N ≤ d` instead, and only `d − b + N .. d` is written, a run shorter than the bubble; `b = N` writes index `d` alone (`DisparityExtender.LeftRunShortened`) | 60 rays (the lab's count), bubble size 0.3, ranges 5 at indices 0–2 and 1 from index 3 on: the disparity at `d = 2` has `b = int(18/π) = 5`, and the slice `[-3:3]` is empty, so the gap stays open. The smaller scan `[5,5,1,1]` with a two-sample bubble does the same | clip the run at index 0, as the right-hand run is clipped at `N`, so that samples `max(0, d − b) .. d` take the near range; `ExtendAtClipped` does so, and `ClippedLeftRun` proves exactly that run is written and nothing else | medium, not executed | `DisparityExtender.LeftRunWrapsAway` | `DisparityExtender.ClippedLeftRun` |

`ExtendDisparities` follows the code as written. The corrected loop is
`ExtendDisparitiesClipped`. No other member uses the extended scan, so the
rest of the model does not depend on which one is chosen.

## Left out

- The `construct` methods of `Lab1` and `Lab2` are left out. They are slide
  choreography for the external animation engine: text, axes, fades,
  `next_slide` and `wait_until`.
- `CarUpdate.Step`: leaves out the ray colouring of `update_car` and its
  `previous_max_ray` tracker (lab2.py:133-144). The previous longest ray is
  turned red and the new one yellow. This is presentation only, and nothing
  else reads it.
- labs/lab1p2/lab1p2.py is not part of this model. Its PID and
  wall-following code exists only as strings for display. The wall-offset
  formula there is `atan2`/`cos` trigonometry.
- Trigonometry and kinematics are left out. This covers the ray unit
  vectors and `np.linspace` angles, the car's forward shift, the rotation
  of the car image, `get_center`, `get_angle` and `put_start_and_end_on`.
  Ray angles and the car position are opaque inputs.
- Angles are compared without wrap-around, as in the source: the ray angle
  from `get_angle` and the accumulated car angle are subtracted directly.
- Arithmetic is exact real arithmetic, not IEEE floating point. NaN and
  infinity appear only where they decide a branch: an ellipse of zero width
  or height contains nothing, and a zero near range makes `int()` raise.
- Points are two-dimensional. The source's `np.linalg.norm` runs over three
  coordinates, which equals the planar distance because every point lies at
  `z = 0`.
- `RayMarch.CastRay`, `RayMarch.FirstOutside`, `RayMarch.UpdateRays`: require `dx > 0`. `np.arange` raises on a zero
  step, and the empty march of a negative step is not modelled.
- `RayMarch.RayLength`: takes the new length to be `abs(high)`. This assumes
  the ray direction has exactly unit length. The engine's own handling of a
  zero-length line is not modelled.
- `CarUpdate.FarthestRay`, `CarUpdate.Step`: require a non-empty scan. Python's `max` raises on an empty list, and every scene builds 15 or 60 rays (lab2.py:218, 267, 358, 409), so that failure is not modelled.
- The engine's updater mechanism is left out: `ValueTracker`, closures,
  `add_updater` and `remove_updater`. Detaching is the boolean returned by
  `FollowPath.Step`.

=== FILE: car.dfy ===
/** `update_car` of labs/lab2/lab2.py: ramp the velocity up, pick the longest
    ray, and turn toward it by a proportional step clipped to a maximal turn
    rate. A ray is reduced to its length and its angle; the forward shift of
    the car (the `cos`/`sin` kinematics) is not part of this model. */
module CarUpdate {
  import opened Common

  /** The two trackers the updater reads and writes. */
  datatype Car = Car(velocity: real, angle: real)

  /** `k` is the index Python's `max(rays, key=length)` returns: a longest
      ray, and the first of the longest ones in list order. */
  predicate IsFirstMax(lengths: seq<real>, k: int)
  {
    && 0 <= k < |lengths|
    && (forall j :: 0 <= j < |lengths| ==> lengths[j] <= lengths[k])
    && (forall j :: 0 <= j < k ==> lengths[j] < lengths[k])
  }

  /** `max` as the builtin runs it: a left fold that replaces the best ray so
      far only by a strictly longer one. `max` of an empty list raises, so a
      scan has at least one ray. */
  function FarthestRay(lengths: seq<real>): (k: nat)
    requires 0 < |lengths|
    ensures IsFirstMax(lengths, k)
    decreases |lengths|
  {
    if |lengths| == 1 then 0
    else
      var last := |lengths| - 1;
      var best := FarthestRay(lengths[..last]);
      assert forall j :: 0 <= j < last ==> lengths[j] == lengths[..last][j];
      if lengths[last] > lengths[best] then last else best
  }

  /** At most one index is the first longest one, so the choice is determined. */
  lemma FirstMaxUnique(lengths: seq<real>, j: int, k: int)
    requires IsFirstMax(lengths, j) && IsFirstMax(lengths, k)
    ensures j == k
  {
    assert lengths[j] <= lengths[k] && lengths[k] <= lengths[j];
  }

  /** A scan of equal ranges steers toward its first ray. */
  lemma AllEqualPicksFirst(lengths: seq<real>)
    requires 0 < |lengths|
    requires forall j :: 0 <= j < |lengths| ==> lengths[j] == lengths[0]
    ensures FarthestRay(lengths) == 0
  {
  }

  /** The turn applied in one frame: `np.clip(0.1 * (target - angle), -2 dt, 2 dt)`. */
  function Rotation(target: real, angle: real, dt: real): (r: real)
    // the turn rate is limited to 2 per unit of time
    ensures 0.0 <= dt ==> -2.0 * dt <= r <= 2.0 * dt
    // within the limit the proportional step is taken as is
    ensures Abs(0.1 * (target - angle)) <= 2.0 * dt ==> r == 0.1 * (target - angle)
    // beyond the limit the turn saturates at the full rate
    ensures 0.0 <= dt && 2.0 * dt < 0.1 * (target - angle) ==> r == 2.0 * dt
    ensures 0.0 <= dt && 0.1 * (target - angle) < -2.0 * dt ==> r == -2.0 * dt
    // the car turns toward the target and never past it
    ensures 0.0 <= dt ==> (angle <= target ==> 0.0 <= r) && (target <= angle ==> r <= 0.0)
    ensures 0.0 <= dt ==> Abs(target - (angle + r)) <= Abs(target - angle)
    // a negative dt crosses the clip bounds and numpy returns the upper one
    ensures dt < 0.0 ==> r == 2.0 * dt
  {
    Clip(0.1 * (target - angle), -2.0 * dt, 2.0 * dt)
  }

  /** The velocity ramp: add `dt` while the velocity is below 1. */
  function Accelerate(velocity: real, dt: real): (r: real)
    // the ramp never slows the car down and stops at the first value >= 1
    ensures 0.0 <= dt ==> velocity <= r
    ensures 1.0 <= velocity ==> r == velocity
    // the overshoot past 1 is less than one frame's dt
    ensures velocity < 1.0 ==> r < 1.0 + dt && r - velocity == dt
  {
    if velocity < 1.0 then velocity + dt else velocity
  }

  /** One frame of `update_car`: `lengths[i]` and `rayAngles[i]` are the
      length and the angle of ray `i`. */
  function Step(c: Car, lengths: seq<real>, rayAngles: seq<real>, dt: real): (r: Car)
    requires 0 < |lengths| && |lengths| == |rayAngles|
    ensures r.velocity == Accelerate(c.velocity, dt)
    // the turn applied is the clipped proportional step toward the longest ray
    ensures r.angle == c.angle + Rotation(rayAngles[FarthestRay(lengths)], c.angle, dt)
    ensures 0.0 <= dt ==> Abs(r.angle - c.angle) <= 2.0 * dt
    ensures 0.0 <= dt ==>
              var k := FarthestRay(lengths);
              && IsFirstMax(lengths, k)
              && Abs(rayAngles[k] - r.angle) <= Abs(rayAngles[k] - c.angle)
  {
    var velocity := Accelerate(c.velocity, dt);
    var target := rayAngles[FarthestRay(lengths)];
    Car(velocity, c.angle + Rotation(target, c.angle, dt))
  }
}

=== FILE: common.dfy ===
/** Small helpers shared by the controller and the scan models: Python's
    `Optional`, and the numeric primitives the labs take from the builtins
    `abs`, `min`, `max` and `int`, and from `np.clip`. */
module Common {

  /** Python's `Optional[T]`: `None` or a present value. */
  datatype Option<+T> = None | Some(value: T)

  function Abs(x: real): (r: real)
    ensures 0.0 <= r
    ensures r == x || r == -x
  {
    if x < 0.0 then -x else x
  }

  /** Python's `min(a, b)`: the first argument unless the second is smaller. */
  function Min(a: real, b: real): (r: real)
    ensures r <= a && r <= b
    ensures r == a || r == b
  {
    if b < a then b else a
  }

  /** Python's `max(a, b)`: the first argument unless the second is larger. */
  function Max(a: real, b: real): (r: real)
    ensures a <= r && b <= r
    ensures r == a || r == b
  {
    if b > a then b else a
  }

  /** `np.clip(x, lo, hi)`, which numpy evaluates as `minimum(maximum(x, lo), hi)`:
      when the bounds are crossed (`lo > hi`) the result is `hi`. */
  function Clip(x: real, lo: real, hi: real): (r: real)
    ensures lo <= hi ==> lo <= r <= hi
    ensures lo <= x <= hi ==> r == x
    // saturation at the violated bound
    ensures hi < x ==> r == hi
    ensures x < lo <= hi ==> r == lo
    ensures hi < lo ==> r == hi
  {
    Min(Max(x, lo), hi)
  }

  /** Python's `int()` on a float: truncation toward zero, not rounding. */
  function Trunc(x: real): (n: int)
    ensures 0.0 <= x ==> 0 <= n && n as real <= x < n as real + 1.0
    ensures x < 0.0 ==> n <= 0 && n as real - 1.0 < x <= n as real
  {
    if x >= 0.0 then x.Floor else -((-x).Floor)
  }

  /** `2^n` as a real, for the halving of a bisection bracket. */
  function Pow2(n: nat): (r: real)
    ensures 1.0 <= r
  {
    if n == 0 then 1.0 else 2.0 * Pow2(n - 1)
  }
}

=== FILE: disparity.dfy ===
/** The disparity extender of `update_rays` in labs/lab2/lab2.py. A disparity
    is a pair of neighbouring ranges that differ by more than a threshold;
    for each one (found once, on the scan as it was before any write) a run
    of samples on the far side is overwritten with the near range, so that a
    gap too narrow for the car no longer looks open. The run length is
    `int(bubble_size * N / (near * pi))` and the run is written with a numpy
    slice assignment, Python slice semantics included. */
module DisparityExtender {
  import opened Common

  /** Neighbours `d` and `d + 1` differ by more than `threshold`. */
  predicate IsDisparity(r: seq<real>, threshold: real, d: int)
  {
    0 <= d && d + 1 < |r| && Abs(r[d + 1] - r[d]) > threshold
  }

  /** `np.where(abs(np.diff(r)) > threshold)[0]`, restricted to indices `>= i`. */
  function DisparitiesFrom(r: seq<real>, threshold: real, i: nat): (ds: seq<nat>)
    ensures forall d: nat :: d in ds <==> i <= d && IsDisparity(r, threshold, d)
    ensures forall a, b :: 0 <= a < b < |ds| ==> ds[a] < ds[b]
    decreases |r| - i
  {
    if |r| <= i + 1 then []
    else
      var rest := DisparitiesFrom(r, threshold, i + 1);
      assert forall j :: 0 <= j < |rest| ==> i < rest[j] by {
        forall j | 0 <= j < |rest| ensures i < rest[j] { assert rest[j] in rest; }
      }
      if IsDisparity(r, threshold, i) then [i] + rest else rest
  }

  /** The disparity indices of the scan, in increasing order. */
  function Disparities(r: seq<real>, threshold: real): (ds: seq<nat>)
    ensures forall d: nat :: d in ds <==> IsDisparity(r, threshold, d)
    ensures forall a, b :: 0 <= a < b < |ds| ==> ds[a] < ds[b]
    ensures forall i :: 0 <= i < |ds| ==> ds[i] + 1 < |r|
  {
    var ds := DisparitiesFrom(r, threshold, 0);
    assert forall i :: 0 <= i < |ds| ==> ds[i] in ds;
    ds
  }

  /** Where a Python slice bound `i` lands in a sequence of length `n`: a
      negative bound counts from the end, and the result is clipped to `[0, n]`. */
  function SliceIndex(i: int, n: nat): (k: nat)
    ensures k <= n
    ensures 0 <= i <= n ==> k == i
    ensures n < i ==> k == n
    ensures i < 0 && 0 <= i + n ==> k == i + n
    ensures i + n < 0 ==> k == 0
  {
    if i < 0 then (if i + n < 0 then 0 else i + n)
    else if i > n then n
    else i
  }

  /** `a[i:j] = v` on a one-dimensional numpy array. */
  function AssignSlice(a: seq<real>, i: int, j: int, v: real): (r: seq<real>)
    ensures |r| == |a|
    ensures forall k :: 0 <= k < |a| ==>
              r[k] == if SliceIndex(i, |a|) <= k < SliceIndex(j, |a|) then v else a[k]
  {
    var lo, hi := SliceIndex(i, |a|), SliceIndex(j, |a|);
    seq(|a|, k requires 0 <= k < |a| => if lo <= k < hi then v else a[k])
  }

  /** The bubble count `int(bubble_size * N / (near * pi))`: the number of
      samples `b` whose arc `b * near * pi / N` on the half circle of radius
      `near` still fits in the bubble, one more sample no longer fitting. */
  function BubbleCount(bubbleSize: real, n: nat, near: real, pi: real): (b: int)
    requires near != 0.0 && 0.0 < pi
    ensures 0.0 < near && 0.0 <= bubbleSize ==>
              && 0 <= b
              && b as real * (near * pi) <= bubbleSize * n as real
              && bubbleSize * n as real < (b as real + 1.0) * (near * pi)
  {
    var q := bubbleSize * n as real / (near * pi);
    var b := Trunc(q);
    if 0.0 < near && 0.0 <= bubbleSize then
      ScaleBounds(b, q, near * pi, bubbleSize * n as real);
      b
    else b
  }

  lemma ScaleBounds(b: int, q: real, m: real, x: real)
    requires 0.0 < m && q == x / m && b as real <= q < b as real + 1.0
    ensures b as real * m <= x < (b as real + 1.0) * m
  {
    var lo, mid, hi := b as real * m, q * m, (b as real + 1.0) * m;
    assert mid == x;
    assert lo <= mid;
    var gap := b as real + 1.0 - q;
    assert 0.0 < gap * m;
    assert hi - mid == gap * m;
  }

  /** The nearer of the two ranges of the pair `d`, `d + 1`, as the source
      picks it: the left one only when it is strictly smaller. */
  function Near(a: seq<real>, d: nat): (v: real)
    requires d + 1 < |a|
    ensures v == a[d] || v == a[d + 1]
    ensures v <= a[d] && v <= a[d + 1]
  {
    if a[d] < a[d + 1] then a[d] else a[d + 1]
  }

  /** One iteration of the extension loop on the current array `a`, as the
      source writes it. `None` is the exception Python raises when the near
      range is zero (`int()` of an infinite or NaN quotient). */
  function ExtendAt(a: seq<real>, d: nat, bubbleSize: real, pi: real): (r: Option<seq<real>>)
    requires d + 1 < |a| && 0.0 < pi
    ensures r.None? <==> Near(a, d) == 0.0
    ensures r.Some? ==> |r.value| == |a|
    ensures r.Some? ==> forall k :: 0 <= k < |a| ==> r.value[k] == a[k] || r.value[k] == Near(a, d)
  {
    if a[d] < a[d + 1] then
      if a[d] == 0.0 then None
      else
        var b := BubbleCount(bubbleSize, |a|, a[d], pi);
        Some(AssignSlice(a, d + 1, d + b + 2, a[d]))
    else
      if a[d + 1] == 0.0 then None
      else
        var b := BubbleCount(bubbleSize, |a|, a[d + 1], pi);
        Some(AssignSlice(a, d - b, d + 1, a[d + 1]))
  }

  /** The same iteration with the left run clipped at index 0 instead of
      wrapping around: the disparity is closed whatever its position. */
  function ExtendAtClipped(a: seq<real>, d: nat, bubbleSize: real, pi: real): (r: Option<seq<real>>)
    requires d + 1 < |a| && 0.0 < pi
    ensures r.None? <==> Near(a, d) == 0.0
    ensures r.Some? ==> |r.value| == |a|
    ensures r.Some? ==> forall k :: 0 <= k < |a| ==> r.value[k] == a[k] || r.value[k] == Near(a, d)
    ensures r.Some? && 0.0 < Near(a, d) && 0.0 <= bubbleSize ==> r.value[d] == r.value[d + 1]
  {
    if a[d] < a[d + 1] then ExtendAt(a, d, bubbleSize, pi)
    else
      if a[d + 1] == 0.0 then None
      else
        var b := BubbleCount(bubbleSize, |a|, a[d + 1], pi);
        Some(AssignSlice(a, if d - b < 0 then 0 else d - b, d + 1, a[d + 1]))
  }

  /** Near range on the left: the run `d + 1 .. d + b + 1` (clipped at the
      end of the scan) takes the near range and nothing else changes, so the
      disparity is closed. */
  lemma ExtendRightOfNear(a: seq<real>, d: nat, bubbleSize: real, pi: real)
    requires d + 1 < |a| && 0.0 < pi
    requires 0.0 < a[d] < a[d + 1] && 0.0 <= bubbleSize
    ensures var b := BubbleCount(bubbleSize, |a|, a[d], pi);
            var r := ExtendAt(a, d, bubbleSize, pi);
            && r.Some? && |r.value| == |a|
            && (forall k :: 0 <= k < |a| ==> r.value[k] == if d + 1 <= k <= d + b + 1 then a[d] else a[k])
            && r.value[d + 1] == r.value[d] == a[d]
  {
  }

  /** Near range on the right and a run that fits: `d - b .. d` takes the
      near range and nothing else changes, so the disparity is closed. */
  lemma ExtendLeftOfNear(a: seq<real>, d: nat, bubbleSize: real, pi: real)
    requires d + 1 < |a| && 0.0 < pi
    requires 0.0 < a[d + 1] <= a[d] && 0.0 <= bubbleSize
    requires BubbleCount(bubbleSize, |a|, a[d + 1], pi) <= d
    ensures var b := BubbleCount(bubbleSize, |a|, a[d + 1], pi);
            var r := ExtendAt(a, d, bubbleSize, pi);
            && r.Some? && |r.value| == |a|
            && (forall k :: 0 <= k < |a| ==> r.value[k] == if d - b <= k <= d then a[d + 1] else a[k])
            && r.value[d] == r.value[d + 1] == a[d + 1]
  {
  }

  /** The corrected iteration with the near range on the right: whatever the
      bubble count, exactly `max(0, d - b) .. d` takes the near range and
      nothing else changes. */
  lemma ClippedLeftRun(a: seq<real>, d: nat, bubbleSize: real, pi: real)
    requires d + 1 < |a| && 0.0 < pi
    requires 0.0 < a[d + 1] <= a[d] && 0.0 <= bubbleSize
    ensures var b := BubbleCount(bubbleSize, |a|, a[d + 1], pi);
            var start := if d - b < 0 then 0 else d - b;
            var r := ExtendAtClipped(a, d, bubbleSize, pi);
            && r.Some? && |r.value| == |a|
            && (forall k :: 0 <= k < |a| ==> r.value[k] == if start <= k <= d then a[d + 1] else a[k])
  {
  }

  /** Near range on the right and a run reaching past index 0 but shorter
      than the scan: the negative slice start wraps to `d - b + N > d`, the
      slice is empty, and the scan is left exactly as it was. */
  lemma LeftRunWrapsAway(a: seq<real>, d: nat, bubbleSize: real, pi: real)
    requires d + 1 < |a| && 0.0 < pi
    requires 0.0 < a[d + 1] <= a[d]
    requires d < BubbleCount(bubbleSize, |a|, a[d + 1], pi) < |a|
    ensures ExtendAt(a, d, bubbleSize, pi) == Some(a)
  {
    var b := BubbleCount(bubbleSize, |a|, a[d + 1], pi);
    assert SliceIndex(d - b, |a|) == d - b + |a|;
    assert SliceIndex(d + 1, |a|) == d + 1;
    var r := ExtendAt(a, d, bubbleSize, pi).value;
    assert |r| == |a|;
    assert forall k :: 0 <= k < |a| ==> r[k] == a[k];
    assert r == a;
  }

  /** Near range on the right and a run at least as long as the scan: the
      slice start `d - b` wraps to `d - b + N`, which is at most `d`, or is
      clipped to 0 once `b > N + d`. Only `start .. d` takes the near range,
      a run shorter than the bubble; with `b = N` it is index `d` alone. */
  lemma LeftRunShortened(a: seq<real>, d: nat, bubbleSize: real, pi: real)
    requires d + 1 < |a| && 0.0 < pi
    requires 0.0 < a[d + 1] <= a[d]
    requires |a| <= BubbleCount(bubbleSize, |a|, a[d + 1], pi)
    ensures var b := BubbleCount(bubbleSize, |a|, a[d + 1], pi);
            var start := if b <= |a| + d then d - b + |a| else 0;
            var r := ExtendAt(a, d, bubbleSize, pi);
            && r.Some? && |r.value| == |a|
            && (forall k :: 0 <= k < |a| ==> r.value[k] == if start <= k <= d then a[d + 1] else a[k])
            && r.value[d] == r.value[d + 1] == a[d + 1]
  {
    var b := BubbleCount(bubbleSize, |a|, a[d + 1], pi);
    var start := if b <= |a| + d then d - b + |a| else 0;
    assert SliceIndex(d - b, |a|) == start;
    assert SliceIndex(d + 1, |a|) == d + 1;
  }

  /** The extension loop over the disparity indices `ds`, each iteration
      reading the array as the earlier ones left it. */
  function ExtendAll(a: seq<real>, ds: seq<nat>, bubbleSize: real, pi: real, clipped: bool): (r: Option<seq<real>>)
    requires 0.0 < pi
    requires forall i :: 0 <= i < |ds| ==> ds[i] + 1 < |a|
    ensures r.Some? ==> |r.value| == |a|
    ensures r.Some? ==> forall k :: 0 <= k < |a| ==> r.value[k] in a
    ensures 0.0 !in a ==> r.Some?
    ensures ds == [] ==> r == Some(a)
    decreases |ds|
  {
    if ds == [] then Some(a)
    else
      var step := if clipped then ExtendAtClipped(a, ds[0], bubbleSize, pi)
                  else ExtendAt(a, ds[0], bubbleSize, pi);
      match step
      case None => None
      case Some(a1) =>
        assert forall k :: 0 <= k < |a1| ==> a1[k] in a;
        var r := ExtendAll(a1, ds[1..], bubbleSize, pi, clipped);
        assert r.Some? ==> forall k :: 0 <= k < |a| ==> r.value[k] in a;
        r
  }

  /** The disparity extender as written: ranges keep their count, every
      range afterwards is one of the original ranges (so the farthest range
      never grows), it fails only on a zero range, and a scan without
      disparities is returned unchanged. */
  function ExtendDisparities(r: seq<real>, threshold: real, bubbleSize: real, pi: real): (e: Option<seq<real>>)
    requires 0.0 < pi
    ensures e.Some? ==> |e.value| == |r|
    ensures e.Some? ==> forall k :: 0 <= k < |r| ==> e.value[k] in r
    ensures 0.0 !in r ==> e.Some?
    ensures (forall d :: !IsDisparity(r, threshold, d)) ==> e == Some(r)
  {
    var ds := Disparities(r, threshold);
    assert (forall d :: !IsDisparity(r, threshold, d)) ==> ds == [] by {
      if ds != [] { assert ds[0] in ds; }
    }
    ExtendAll(r, ds, bubbleSize, pi, false)
  }

  /** The extender with the left run clipped at index 0. */
  function ExtendDisparitiesClipped(r: seq<real>, threshold: real, bubbleSize: real, pi: real): (e: Option<seq<real>>)
    requires 0.0 < pi
    ensures e.Some? ==> |e.value| == |r|
    ensures e.Some? ==> forall k :: 0 <= k < |r| ==> e.value[k] in r
    ensures 0.0 !in r ==> e.Some?
  {
    ExtendAll(r, Disparities(r, threshold), bubbleSize, pi, true)
  }

  /** A range count of `bubble_size * N / (near * pi)` below one truncates to
      no extra samples. */
  lemma BubbleCountZero(bubbleSize: real, n: nat, near: real, pi: real)
    requires 0.0 < near && 0.0 < pi && 0.0 <= bubbleSize
    requires bubbleSize * n as real < near * pi
    ensures BubbleCount(bubbleSize, n, near, pi) == 0
  {
  }

  /** The scan `[5, 5, 5, 1, 1, 5, 5, 5]` with threshold 2 and the default
      bubble size 0.3: the disparities are at 2 and 4, each run is a single
      sample, indices 2 and 5 take the near range 1, and the far plateaus
      at both ends keep the maximum. */
  lemma PlateauExample(pi: real)
    requires 3.0 < pi
    ensures Disparities([5.0, 5.0, 5.0, 1.0, 1.0, 5.0, 5.0, 5.0], 2.0) == [2, 4]
    ensures ExtendDisparities([5.0, 5.0, 5.0, 1.0, 1.0, 5.0, 5.0, 5.0], 2.0, 0.3, pi)
            == Some([5.0, 5.0, 1.0, 1.0, 1.0, 1.0, 5.0, 5.0])
  {
    var a := [5.0, 5.0, 5.0, 1.0, 1.0, 5.0, 5.0, 5.0];
    var ds := Disparities(a, 2.0);
    assert ds == [2, 4] by {
      assert DisparitiesFrom(a, 2.0, 7) == [];
      assert DisparitiesFrom(a, 2.0, 5) == [];
      assert DisparitiesFrom(a, 2.0, 4) == [4];
      assert DisparitiesFrom(a, 2.0, 3) == [4];
      assert DisparitiesFrom(a, 2.0, 2) == [2, 4];
      assert DisparitiesFrom(a, 2.0, 0) == [2, 4];
    }
    BubbleCountZero(0.3, 8, 1.0, pi);
    var a1 := [5.0, 5.0, 1.0, 1.0, 1.0, 5.0, 5.0, 5.0];
    var a2 := [5.0, 5.0, 1.0, 1.0, 1.0, 1.0, 5.0, 5.0];
    assert BubbleCount(0.3, 8, 1.0, pi) == 0;
    assert ExtendAt(a, 2, 0.3, pi) == Some(a1) by {
      assert SliceIndex(2, 8) == 2 && SliceIndex(3, 8) == 3;
      assert AssignSlice(a, 2, 3, 1.0) == a1;
    }
    assert ExtendAt(a1, 4, 0.3, pi) == Some(a2) by {
      assert SliceIndex(5, 8) == 5 && SliceIndex(6, 8) == 6;
      assert AssignSlice(a1, 5, 6, 1.0) == a2;
    }
    assert ExtendAll(a2, [], 0.3, pi, false) == Some(a2);
    assert [4][1..] == [];
    assert ExtendAll(a1, [4], 0.3, pi, false) == Some(a2);
    assert ds[1..] == [4];
  }

  /** The scan `[5, 5, 1, 1]` with a bubble that spans two samples at range
      1: the only disparity is at 1 with the near range on the right, the
      slice `[-1:2]` wraps to the empty `[3:2]`, and the scan comes back
      unchanged; clipping the run at 0 instead closes the gap. */
  lemma LeftEdgeExample(pi: real)
    requires 0.0 < pi
    ensures ExtendDisparities([5.0, 5.0, 1.0, 1.0], 2.0, 5.0 * pi / 8.0, pi)
            == Some([5.0, 5.0, 1.0, 1.0])
    ensures ExtendDisparitiesClipped([5.0, 5.0, 1.0, 1.0], 2.0, 5.0 * pi / 8.0, pi)
            == Some([1.0, 1.0, 1.0, 1.0])
  {
    var a := [5.0, 5.0, 1.0, 1.0];
    var bubble := 5.0 * pi / 8.0;
    assert Disparities(a, 2.0) == [1] by {
      assert DisparitiesFrom(a, 2.0, 3) == [];
      assert DisparitiesFrom(a, 2.0, 2) == [];
      assert DisparitiesFrom(a, 2.0, 1) == [1];
      assert DisparitiesFrom(a, 2.0, 0) == [1];
    }
    assert BubbleCount(bubble, 4, 1.0, pi) == 2 by {
      assert bubble * 4.0 / (1.0 * pi) == 2.5;
    }
    LeftRunWrapsAway(a, 1, bubble, pi);
    assert [1][1..] == [];
    var c := [1.0, 1.0, 1.0, 1.0];
    assert ExtendAtClipped(a, 1, bubble, pi) == Some(c) by {
      assert AssignSlice(a, 0, 2, 1.0) == c;
    }
    assert ExtendAll(c, [], bubble, pi, true) == Some(c);
  }
}

=== FILE: follow_path.dfy ===
/** The `follow_path` updater of labs/lab1/lab1.py: once per frame the car's
    offset from the line is fed to the PID controller as the measurement, the
    clamped output turns the heading, and the speed ramps up until the car is
    past the end of the line and then ramps down to a stop. The car's position
    (the `cos`/`sin` kinematics) is an input here, not part of the state. */
module FollowPath {
  import opened Common
  import opened Pid

  /** The constants `follow_path` captures from the slide. */
  datatype Track = Track(
    lineStartX: real, lineStartY: real, lineLength: real,
    acceleration: real, maxSpeed: real)

  /** lab1.py: line from (-5, 0), length 10, acceleration 2, max speed 1.5. */
  const Lab1Track := Track(-5.0, 0.0, 10.0, 2.0, 1.5)

  /** The state the updater closes over: the controller, the heading tracker
      and the speed tracker. */
  datatype Follower = Follower(pid: Pid, heading: real, speed: real)

  /** The speed update: accelerate up to `maxSpeed` while the car is before
      the end of the line, otherwise brake down to zero. */
  function SpeedRamp(speed: real, beforeEnd: bool, acceleration: real, dt: real, maxSpeed: real): (r: real)
    // before the end: one step of acceleration, capped at the maximum
    ensures beforeEnd ==> r <= maxSpeed && r <= speed + acceleration * dt
    ensures beforeEnd ==> r == maxSpeed || r == speed + acceleration * dt
    // past the end: one step of braking, stopped at zero
    ensures !beforeEnd ==> 0.0 <= r && speed - acceleration * dt <= r
    ensures !beforeEnd ==> r == 0.0 || r == speed - acceleration * dt
    ensures 0.0 <= speed <= maxSpeed && 0.0 <= acceleration * dt ==> 0.0 <= r <= maxSpeed
    ensures 0.0 <= acceleration * dt ==> if beforeEnd then r >= Min(speed, maxSpeed) else r <= Max(speed, 0.0)
  {
    if beforeEnd then Min(speed + acceleration * dt, maxSpeed)
    else Max(speed - acceleration * dt, 0.0)
  }

  /** One frame of `follow_path` with the car centred at `(x, y)`. The second
      component is false when the updater removes itself. */
  function Step(f: Follower, track: Track, x: real, y: real, dt: Option<real>): (r: (Follower, bool))
    // no time passed: the frame is skipped entirely
    ensures !TimePassed(dt) ==> r == (f, true)
    // the offset from the line is the measurement the controller sees
    ensures TimePassed(dt) ==> r.0.pid.previousError == Some(f.pid.setpoint - (y - track.lineStartY))
    ensures TimePassed(dt) ==> SameConfig(r.0.pid, f.pid)
    // the controller keeps the state of its update, and its output turns the heading
    ensures TimePassed(dt) ==> r.0.pid == Update(f.pid, y - track.lineStartY, dt).0
    ensures TimePassed(dt) ==>
              r.0.heading == f.heading + Update(f.pid, y - track.lineStartY, dt).1.u * dt.value
    ensures TimePassed(dt) ==>
              r.0.speed == SpeedRamp(f.speed, x < track.lineStartX + track.lineLength,
                                     track.acceleration, dt.value, track.maxSpeed)
    // the speed stays within [0, maxSpeed]
    ensures 0.0 <= f.speed <= track.maxSpeed && 0.0 <= track.acceleration
            ==> 0.0 <= r.0.speed <= track.maxSpeed
    // the updater detaches once the car is past the line's end and stopped
    ensures !r.1 <==> TimePassed(dt) && track.lineStartX + track.lineLength <= x && r.0.speed <= 0.0
  {
    if !TimePassed(dt) then (f, true)
    else
      var (pid, terms) := Update(f.pid, y - track.lineStartY, dt);
      var heading := f.heading + terms.u * dt.value;
      var beforeEnd := x < track.lineStartX + track.lineLength;
      var speed := SpeedRamp(f.speed, beforeEnd, track.acceleration, dt.value, track.maxSpeed);
      (Follower(pid, heading, speed), beforeEnd || speed > 0.0)
  }

  /** The heading change of a frame, the controller output times `dt` (see
      `Step`), is at most `high · dt`, and at least `low · dt` when the limits
      are ordered. */
  lemma TurnWithinLimits(s: Pid, measurement: real, dt: Option<real>)
    requires TimePassed(dt)
    ensures var lim := s.outLimits;
            var turn := Update(s, measurement, dt).1.u * dt.value;
            && (lim.high.Some? ==> turn <= lim.high.value * dt.value)
            && (lim.low.Some? && lim.high.Some? && lim.low.value <= lim.high.value
                ==> lim.low.value * dt.value <= turn)
  {
    var lim := s.outLimits;
    var u := Update(s, measurement, dt).1.u;
    if lim.high.Some? {
      ScaleLe(u, lim.high.value, dt.value);
    }
    if lim.low.Some? && lim.high.Some? && lim.low.value <= lim.high.value {
      ScaleLe(lim.low.value, u, dt.value);
    }
  }

  lemma ScaleLe(a: real, b: real, c: real)
    requires a <= b && 0.0 <= c
    ensures a * c <= b * c
  {
    assert (b - a) * c >= 0.0;
  }

  /** The speed profile on the lab1.py track at half-second frames: 0, 1,
      then capped at 1.5 before the end of the line at x = 5; past it 0.5 and
      then 0, and the frame that reaches 0 detaches the updater. */
  lemma Lab1RampExample(heading: real, y: real)
    ensures SpeedRamp(0.0, true, Lab1Track.acceleration, 0.5, Lab1Track.maxSpeed) == 1.0
    ensures SpeedRamp(1.0, true, Lab1Track.acceleration, 0.5, Lab1Track.maxSpeed) == 1.5
    ensures SpeedRamp(1.5, false, Lab1Track.acceleration, 0.5, Lab1Track.maxSpeed) == 0.5
    ensures Step(Follower(Lab1Controller, heading, 1.5), Lab1Track, 5.0, y, Some(0.5)).1
    ensures !Step(Follower(Lab1Controller, heading, 0.5), Lab1Track, 5.0, y, Some(0.5)).1
  {
  }
}

=== FILE: obstacles.dfy ===
/** `get_is_in` of labs/lab2/lab2.py: a point is "in" when some listed
    obstacle contains it, where each obstacle's containment test is inverted
    when it is tagged as negative space. Shapes are reduced to the numbers
    the tests read from them. */
module Obstacles {

  datatype Point = Point(x: real, y: real)

  /** The shapes `get_is_in` distinguishes by exact type. A rectangle is
      given by the corners `get_corner(UL)` and `get_corner(DR)` of its
      bounding box; any other shape (a subclass such as a square included)
      is `Other`. */
  datatype Shape =
    | Circle(center: Point, radius: real)
    | Ellipse(center: Point, width: real, height: real)
    | Rectangle(upperLeft: Point, lowerRight: Point)
    | Other

  datatype ObstacleType = PositiveSpace | NegativeSpace

  datatype Obstacle = Obstacle(shape: Shape, kind: ObstacleType)

  function SquaredDistance(p: Point, q: Point): (r: real)
    ensures 0.0 <= r
  {
    (p.x - q.x) * (p.x - q.x) + (p.y - q.y) * (p.y - q.y)
  }

  /** The boundary-inclusive containment test of one shape. The circle test
      `norm(p - c) <= r` is taken on squared distances (see `NormTest`).
      An ellipse of zero width or height divides by zero, which numpy turns
      into an infinite or NaN coordinate that never compares `<= 1`. */
  predicate Contains(s: Shape, p: Point)
    // a circle of non-negative radius and a proper ellipse contain their centre
    ensures s.Circle? && 0.0 <= s.radius && p == s.center ==> Contains(s, p)
    ensures s.Ellipse? && s.width != 0.0 && s.height != 0.0 && p == s.center ==> Contains(s, p)
    // degenerate shapes contain nothing: a negative radius, a zero-axis ellipse, an unknown type
    ensures s.Circle? && s.radius < 0.0 ==> !Contains(s, p)
    ensures s.Ellipse? && (s.width == 0.0 || s.height == 0.0) ==> !Contains(s, p)
    ensures s.Other? ==> !Contains(s, p)
    // a rectangle contains only points of its box, and only when its corners are ordered
    ensures s.Rectangle? && Contains(s, p) ==>
              s.upperLeft.x <= s.lowerRight.x && s.lowerRight.y <= s.upperLeft.y
  {
    match s
    case Circle(c, r) => 0.0 <= r && SquaredDistance(p, c) <= r * r
    case Ellipse(c, w, h) =>
      if w == 0.0 || h == 0.0 then false
      else
        var x := (p.x - c.x) / (w / 2.0);
        var y := (p.y - c.y) / (h / 2.0);
        x * x + y * y <= 1.0
    case Rectangle(ul, dr) => ul.x <= p.x <= dr.x && dr.y <= p.y <= ul.y
    case Other => false
  }

  /** One obstacle's verdict: its containment test, inverted for negative space. */
  predicate Hits(o: Obstacle, p: Point)
  {
    Contains(o.shape, p) != (o.kind == NegativeSpace)
  }

  /** The closure `is_in` returned by `get_is_in(*obstacles)`: scans the
      obstacles in order and answers true at the first one that hits. */
  function IsIn(obstacles: seq<Obstacle>, p: Point): (r: bool)
    ensures r <==> exists i :: 0 <= i < |obstacles| && Hits(obstacles[i], p)
    ensures obstacles == [] ==> !r
    decreases |obstacles|
  {
    if obstacles == [] then false
    else if Hits(obstacles[0], p) then true
    else IsIn(obstacles[1..], p)
  }

  /** Squaring is faithful to the norm comparison: for the true distance `n`
      (the non-negative root of the squared distance) `n <= r` holds exactly
      when the squared test does. */
  lemma NormTest(p: Point, c: Point, r: real, n: real)
    requires 0.0 <= n && n * n == SquaredDistance(p, c)
    ensures n <= r <==> Contains(Circle(c, r), p)
  {
    assert Contains(Circle(c, r), p) == (0.0 <= r && n * n <= r * r);
    if 0.0 <= r {
      if n <= r {
        SquareMono(n, r);
      } else {
        SquareStrictMono(r, n);
      }
    }
  }

  lemma SquareMono(x: real, y: real)
    requires 0.0 <= x <= y
    ensures x * x <= y * y
  {
    assert x * x <= x * y;
    assert x * y <= y * y;
  }

  lemma SquareStrictMono(x: real, y: real)
    requires 0.0 <= x < y
    ensures x * x < y * y
  {
    var low, mid, high := x * x, x * y, y * y;
    assert low <= mid;
    assert mid < high;
  }

  /** The boundary is inside: a point at exactly the radius, on an ellipse's
      rim, or on a rectangle's edge is contained. */
  lemma BoundaryIncluded(c: Point, r: real, w: real, h: real, ul: Point, dr: Point)
    requires 0.0 <= r && w != 0.0 && h != 0.0
    requires ul.x <= dr.x && dr.y <= ul.y
    ensures Contains(Circle(c, r), Point(c.x + r, c.y))
    ensures Contains(Ellipse(c, w, h), Point(c.x + w / 2.0, c.y))
    ensures Contains(Rectangle(ul, dr), ul) && Contains(Rectangle(ul, dr), dr)
  {
    var x := (c.x + w / 2.0 - c.x) / (w / 2.0);
    assert x == 1.0;
  }

  /** The verdict does not depend on the order of the obstacles. */
  lemma OrderIndependent(a: seq<Obstacle>, b: seq<Obstacle>, p: Point)
    requires multiset(a) == multiset(b)
    ensures IsIn(a, p) == IsIn(b, p)
  {
    if IsIn(a, p) {
      var i :| 0 <= i < |a| && Hits(a[i], p);
      assert a[i] in multiset(b);
      var j :| 0 <= j < |b| && b[j] == a[i];
    }
    if IsIn(b, p) {
      var j :| 0 <= j < |b| && Hits(b[j], p);
      assert b[j] in multiset(a);
      var i :| 0 <= i < |a| && a[i] == b[j];
    }
  }

  /** Listing two groups of obstacles together answers their disjunction. */
  lemma Concatenation(a: seq<Obstacle>, b: seq<Obstacle>, p: Point)
    ensures IsIn(a + b, p) == (IsIn(a, p) || IsIn(b, p))
  {
    if IsIn(a + b, p) {
      var i :| 0 <= i < |a + b| && Hits((a + b)[i], p);
      if i >= |a| {
        assert b[i - |a|] == (a + b)[i];
      }
    }
    if IsIn(a, p) {
      var i :| 0 <= i < |a| && Hits(a[i], p);
      assert (a + b)[i] == a[i];
    }
    if IsIn(b, p) {
      var j :| 0 <= j < |b| && Hits(b[j], p);
      assert (a + b)[|a| + j] == b[j];
    }
  }

  /** A shape of unknown type tagged as negative space covers the plane. */
  lemma UnknownNegativeCoversAll(obstacles: seq<Obstacle>, shape: Shape, p: Point)
    requires shape.Other? && Obstacle(shape, NegativeSpace) in obstacles
    ensures IsIn(obstacles, p)
  {
    var i :| 0 <= i < |obstacles| && obstacles[i] == Obstacle(shape, NegativeSpace);
    assert Hits(obstacles[i], p);
  }
}

=== FILE: pid.dfy ===
/** The `PID` record of labs/lab1/lab1.py as an immutable value: `Update`
    returns the next controller together with the tuple `(u, p, i, d)` that
    the Python method returns, and `Reset` returns the cleared controller. */
module Pid {
  import opened Common

  /** The `out_limits` pair; an absent bound leaves that side unbounded. */
  datatype Limits = Limits(low: Option<real>, high: Option<real>)

  /** Gains, setpoint and limits (configuration) plus the integral
      accumulator and the optional previous error (accumulated state). */
  datatype Pid = Pid(
    kp: real, ki: real, kd: real, setpoint: real, outLimits: Limits,
    integral: real, previousError: Option<real>)

  /** The returned tuple: clamped output and the three unclamped terms. */
  datatype Terms = Terms(u: real, p: real, i: real, d: real)

  /** One call of `update`: a measurement and the optional elapsed time. */
  datatype Sample = Sample(measurement: real, dt: Option<real>)

  /** The dataclass default for `out_limits`. */
  const DefaultLimits := Limits(Some(-1.0), Some(1.0))

  /** A freshly constructed controller: zero integral, no previous error. */
  function New(kp: real, ki: real, kd: real, setpoint: real, outLimits: Limits): Pid
  {
    Pid(kp, ki, kd, setpoint, outLimits, 0.0, None)
  }

  /** Same gains, setpoint and limits. */
  predicate SameConfig(a: Pid, b: Pid)
  {
    a.kp == b.kp && a.ki == b.ki && a.kd == b.kd && a.setpoint == b.setpoint
    && a.outLimits == b.outLimits
  }

  /** Python's `dt and dt > 0.0`: both `None` and `0.0` mean no time passed. */
  predicate TimePassed(dt: Option<real>)
  {
    dt.Some? && dt.value > 0.0
  }

  /** `u` already lies within every bound that is present. */
  predicate WithinLimits(u: real, lim: Limits)
  {
    (lim.low.None? || lim.low.value <= u) && (lim.high.None? || u <= lim.high.value)
  }

  /** The two sequential clamps of `update`: the low bound first, then the
      high bound, so the high bound wins when the limits cross. */
  function Clamp(u: real, lim: Limits): (r: real)
    ensures lim.high.Some? ==> r <= lim.high.value
    ensures lim.low.Some? && (lim.high.None? || lim.low.value <= lim.high.value)
            ==> lim.low.value <= r
    ensures WithinLimits(u, lim) ==> r == u
    ensures r == u || (lim.low.Some? && r == lim.low.value) || (lim.high.Some? && r == lim.high.value)
    // saturation: a violated bound is returned as the output
    ensures lim.high.Some? && lim.high.value < u ==> r == lim.high.value
    ensures lim.low.Some? && u < lim.low.value && (lim.high.None? || lim.low.value <= lim.high.value)
            ==> r == lim.low.value
    // crossed limits: the high bound, applied last, wins
    ensures lim.low.Some? && lim.high.Some? && lim.high.value < lim.low.value ==> r == lim.high.value
  {
    var u1 := if lim.low.Some? && u < lim.low.value then lim.low.value else u;
    if lim.high.Some? && u1 > lim.high.value then lim.high.value else u1
  }

  /** The guarded difference quotient of `update`: zero unless time passed
      and a previous error exists; otherwise the change of the error per unit
      of time. */
  function Derivative(error: real, previousError: Option<real>, dt: Option<real>): (r: real)
    ensures !TimePassed(dt) || previousError.None? ==> r == 0.0
    ensures TimePassed(dt) && previousError.Some? ==> r * dt.value == error - previousError.value
  {
    if TimePassed(dt) && previousError.Some? then (error - previousError.value) / dt.value else 0.0
  }

  /** `PID.update(measurement, dt)`. */
  function Update(s: Pid, measurement: real, dt: Option<real>): (r: (Pid, Terms))
    // configuration is untouched
    ensures SameConfig(r.0, s)
    // P term: the gain times the raw error `setpoint - measurement`
    ensures r.1.p == s.kp * (s.setpoint - measurement)
    // Euler integration only when time passed
    ensures TimePassed(dt) ==> r.0.integral - s.integral == (s.setpoint - measurement) * dt.value
    ensures !TimePassed(dt) ==> r.0.integral == s.integral
    ensures r.1.i == s.ki * r.0.integral
    // cold-start policy of the derivative
    ensures !TimePassed(dt) || s.previousError.None? ==> r.1.d == 0.0
    ensures TimePassed(dt) && s.previousError.Some?
            ==> r.1.d * dt.value == s.kd * ((s.setpoint - measurement) - s.previousError.value)
    // the output bounds
    ensures s.outLimits.high.Some? ==> r.1.u <= s.outLimits.high.value
    ensures s.outLimits.low.Some?
            && (s.outLimits.high.None? || s.outLimits.low.value <= s.outLimits.high.value)
            ==> s.outLimits.low.value <= r.1.u
    ensures WithinLimits(r.1.p + r.1.i + r.1.d, s.outLimits) ==> r.1.u == r.1.p + r.1.i + r.1.d
    // a raw sum beyond a bound saturates at that bound
    ensures s.outLimits.high.Some? && s.outLimits.high.value < r.1.p + r.1.i + r.1.d
            ==> r.1.u == s.outLimits.high.value
    ensures s.outLimits.low.Some? && r.1.p + r.1.i + r.1.d < s.outLimits.low.value
            && (s.outLimits.high.None? || s.outLimits.low.value <= s.outLimits.high.value)
            ==> r.1.u == s.outLimits.low.value
    ensures s.outLimits.low.Some? && s.outLimits.high.Some?
            && s.outLimits.high.value < s.outLimits.low.value
            ==> r.1.u == s.outLimits.high.value
    // the raw error, not the clamped output, is remembered
    ensures r.0.previousError == Some(s.setpoint - measurement)
  {
    var error := s.setpoint - measurement;
    var integral := if TimePassed(dt) then s.integral + error * dt.value else s.integral;
    var derivative := Derivative(error, s.previousError, dt);
    var u := s.kp * error + s.ki * integral + s.kd * derivative;
    var next := s.(integral := integral, previousError := Some(error));
    (next, Terms(Clamp(u, s.outLimits), s.kp * error, s.ki * integral, s.kd * derivative))
  }

  /** `PID.reset()`: clears the accumulated state, keeps the configuration. */
  function Reset(s: Pid): (r: Pid)
    ensures SameConfig(r, s)
    ensures r.integral == 0.0 && r.previousError == None
    ensures r == New(s.kp, s.ki, s.kd, s.setpoint, s.outLimits)
  {
    s.(integral := 0.0, previousError := None)
  }

  /** A sequence of `update` calls; returns the final controller and the
      tuples in call order. */
  function Run(s: Pid, samples: seq<Sample>): (r: (Pid, seq<Terms>))
    ensures |r.1| == |samples|
    ensures SameConfig(r.0, s)
    decreases |samples|
  {
    if samples == [] then (s, [])
    else
      var (s1, t) := Update(s, samples[0].measurement, samples[0].dt);
      var (s2, ts) := Run(s1, samples[1..]);
      (s2, [t] + ts)
  }

  /** The first update after construction or `reset` has a zero D term. */
  lemma FirstDerivativeIsZero(s: Pid, measurement: real, dt: Option<real>)
    ensures Update(Reset(s), measurement, dt).1.d == 0.0
    ensures Update(New(s.kp, s.ki, s.kd, s.setpoint, s.outLimits), measurement, dt).1.d == 0.0
  {
  }

  /** Two consecutive updates: when time passes in the second, its D term is
      the gain times the change of the raw error over `dt`. */
  lemma {:induction false} DerivativeTracksErrorChange(
    s: Pid, m1: real, dt1: Option<real>, m2: real, dt2: Option<real>)
    requires TimePassed(dt2)
    ensures Update(Update(s, m1, dt1).0, m2, dt2).1.d * dt2.value
            == s.kd * ((s.setpoint - m2) - (s.setpoint - m1))
  {
    UpdateRemembersError(s, m1, dt1);
    UpdateDerivativeStep(Update(s, m1, dt1).0, m2, dt2);
  }

  lemma UpdateRemembersError(s: Pid, measurement: real, dt: Option<real>)
    ensures var s1 := Update(s, measurement, dt).0;
            s1.previousError == Some(s.setpoint - measurement) && s1.kd == s.kd && s1.setpoint == s.setpoint
  {
  }

  lemma UpdateDerivativeStep(s: Pid, measurement: real, dt: Option<real>)
    requires TimePassed(dt) && s.previousError.Some?
    ensures Update(s, measurement, dt).1.d * dt.value
            == s.kd * ((s.setpoint - measurement) - s.previousError.value)
  {
  }

  lemma UpdateWithoutTime(s: Pid, measurement: real, dt: Option<real>)
    requires !TimePassed(dt)
    ensures SameConfig(Update(s, measurement, dt).0, s)
    ensures Update(s, measurement, dt).0.integral == s.integral
    ensures FrozenTerms(s, Sample(measurement, dt), Update(s, measurement, dt).1)
  {
  }

  /** Replaying any samples after `reset` produces exactly the tuples a
      fresh controller with the same configuration produces. */
  lemma {:induction false} ReplayAfterReset(s: Pid, samples: seq<Sample>)
    ensures Run(Reset(s), samples).1 == Run(New(s.kp, s.ki, s.kd, s.setpoint, s.outLimits), samples).1
  {
  }

  /** The tuple an update returns when no time passes: zero D term and
      the clamped `kp * error + ki * integral` of the frozen integral. */
  predicate FrozenTerms(s: Pid, x: Sample, t: Terms)
  {
    var e := s.setpoint - x.measurement;
    t.d == 0.0 && t.p == s.kp * e && t.i == s.ki * s.integral
    && t.u == Clamp(s.kp * e + s.ki * s.integral, s.outLimits)
  }

  lemma FrozenTermsTransfer(a: Pid, b: Pid, x: Sample, t: Terms)
    requires SameConfig(a, b) && a.integral == b.integral
    requires FrozenTerms(a, x, t)
    ensures FrozenTerms(b, x, t)
  {
  }

  /** With no time passing, the integral is frozen and the D term stays
      zero, so every output is the clamped `kp * error + ki * integral`. */
  lemma {:induction false} FrozenWithoutTime(s: Pid, samples: seq<Sample>)
    requires forall k :: 0 <= k < |samples| ==> !TimePassed(samples[k].dt)
    ensures Run(s, samples).0.integral == s.integral
    ensures forall k :: 0 <= k < |samples| ==> FrozenTerms(s, samples[k], Run(s, samples).1[k])
    decreases |samples|
  {
    if samples != [] {
      var x := samples[0];
      var (s1, t) := Update(s, x.measurement, x.dt);
      UpdateWithoutTime(s, x.measurement, x.dt);
      assert FrozenTerms(s, x, t);
      FrozenWithoutTime(s1, samples[1..]);
      var (s2, ts) := Run(s1, samples[1..]);
      assert Run(s, samples) == (s2, [t] + ts);
      forall k | 1 <= k < |samples|
        ensures FrozenTerms(s, samples[k], Run(s, samples).1[k])
      {
        assert samples[k] == samples[1..][k - 1];
        assert Run(s, samples).1[k] == ts[k - 1];
        FrozenTermsTransfer(s1, s, samples[k], ts[k - 1]);
      }
    }
  }

  /** The gains used by lab1.py: kp 2, ki 0.1, kd 2, setpoint 0, limits (-2, 2). */
  const Lab1Controller := New(2.0, 0.1, 2.0, 0.0, Limits(Some(-2.0), Some(2.0)))

  /** Two updates of the lab1.py controller with measurement 1 and dt 1:
      the raw outputs -2.1 and -2.2 are both clamped to -2. */
  lemma WorkedExample()
    ensures var (s1, t1) := Update(Lab1Controller, 1.0, Some(1.0));
            && s1.integral == -1.0 && t1 == Terms(-2.0, -2.0, -0.1, 0.0)
            && t1.p + t1.i + t1.d == -2.1
            && var (s2, t2) := Update(s1, 1.0, Some(1.0));
            && s2.integral == -2.0 && t2 == Terms(-2.0, -2.0, -0.2, 0.0)
            && t2.p + t2.i + t2.d == -2.2
  {
  }

  /** With the dataclass's default limits (-1, 1) a proportional controller
      saturates on both sides: an error of 5 is returned as 1 and an error of
      -5 as -1, while an error of 0.5 passes unchanged. */
  lemma DefaultLimitsSaturate()
    ensures var s := New(1.0, 0.0, 0.0, 0.0, DefaultLimits);
            && Update(s, -5.0, None).1.u == 1.0
            && Update(s, 5.0, None).1.u == -1.0
            && Update(s, -0.5, None).1.u == 0.5
  {
  }
}

=== FILE: ray_march.dfy ===
/** The per-ray range measurement of `update_rays` in labs/lab2/lab2.py: march
    along the ray at the points `np.arange(0, max_ray_length, dx)`, and at the
    first point that is outside the track refine the hit by bisection between
    the previous march point and that one. The geometry of a ray (car centre
    plus `t` times its unit vector) is abstracted into a predicate `outside`
    on the ray parameter `t`. */
module RayMarch {
  import opened Common

  /** The keyword defaults of `ray_updater`. */
  datatype RayConfig = RayConfig(maxRayLength: real, dx: real, iterations: nat)

  const DefaultRayConfig := RayConfig(20.0, 0.1, 10)

  /** The bracket that bisection leaves, and the march step it started from. */
  datatype Hit = Hit(step: nat, low: real, high: real)

  /** The `k`-th point of `np.arange(0, maxLength, dx)`. */
  function Sample(k: nat, dx: real): real
  {
    k as real * dx
  }

  lemma SampleMono(j: nat, k: nat, dx: real)
    requires 0.0 < dx && j <= k
    ensures Sample(j, dx) <= Sample(k, dx)
  {
  }

  lemma SamplePrevious(k: nat, dx: real)
    ensures 0 < k ==> Sample(k - 1, dx) == Sample(k, dx) - dx
  {
  }

  /** A march point below `maxLength` has an index at most `maxLength / dx`. */
  lemma StepBound(k: nat, dx: real, maxLength: real)
    requires 0.0 < dx && Sample(k, dx) < maxLength
    ensures k <= (maxLength / dx).Floor
  {
    var q := maxLength / dx;
    assert q * dx == maxLength;
    assert k as real < q;
  }

  /** The first march point from index `k` on at which the ray is outside,
      if any lies below `maxLength`. */
  function FirstOutside(outside: real -> bool, maxLength: real, dx: real, k: nat): (r: Option<nat>)
    requires 0.0 < dx
    ensures r.None? ==>
              forall j: nat :: k <= j && Sample(j, dx) < maxLength ==> !outside(Sample(j, dx))
    ensures r.Some? ==>
              && k <= r.value && Sample(r.value, dx) < maxLength && outside(Sample(r.value, dx))
              && forall j: nat :: k <= j < r.value ==> !outside(Sample(j, dx))
    decreases (maxLength / dx).Floor + 1 - k
  {
    if maxLength <= Sample(k, dx) then
      assert forall j: nat :: k <= j ==> Sample(k, dx) <= Sample(j, dx) by {
        forall j: nat | k <= j { SampleMono(k, j, dx); }
      }
      None
    else if outside(Sample(k, dx)) then Some(k)
    else
      StepBound(k, dx, maxLength);
      FirstOutside(outside, maxLength, dx, k + 1)
  }

  lemma HalvedWidth(w: real, n: nat)
    requires 0 < n
    ensures (w / 2.0) / Pow2(n - 1) == w / Pow2(n)
  {
    var p := Pow2(n - 1);
    assert Pow2(n) == 2.0 * p;
    assert (w / 2.0) / p == w / (2.0 * p);
  }

  /** `iterations` rounds of the bisection loop on the bracket `[low, high]`:
      the midpoint replaces `high` when it is outside and `low` otherwise. */
  function Bisect(outside: real -> bool, low: real, high: real, iterations: nat): (r: (real, real))
    requires low <= high
    ensures low <= r.0 <= r.1 <= high
    ensures r.1 - r.0 == (high - low) / Pow2(iterations)
    ensures outside(high) ==> outside(r.1)
    ensures !outside(low) ==> !outside(r.0)
    decreases iterations
  {
    if iterations == 0 then (low, high)
    else
      var mid := (low + high) / 2.0;
      var r := if outside(mid) then Bisect(outside, low, mid, iterations - 1)
               else Bisect(outside, mid, high, iterations - 1);
      HalvedWidth(high - low, iterations);
      r
  }

  /** Measuring one ray: `None` when no march point is outside (the ray is
      left as it was), otherwise the refined bracket of the first hit. */
  function CastRay(outside: real -> bool, maxLength: real, dx: real, iterations: nat): (r: Option<Hit>)
    requires 0.0 < dx
    ensures r.None? <==> forall j: nat :: Sample(j, dx) < maxLength ==> !outside(Sample(j, dx))
    ensures r.Some? ==>
              var t := Sample(r.value.step, dx);
              && t < maxLength && outside(t)
              && (forall j: nat :: j < r.value.step ==> !outside(Sample(j, dx)))
              && t - dx <= r.value.low <= r.value.high <= t
              && r.value.high - r.value.low == dx / Pow2(iterations)
              && outside(r.value.high)
              && (0 < r.value.step ==> !outside(r.value.low))
  {
    match FirstOutside(outside, maxLength, dx, 0)
    case None => None
    case Some(k) =>
      var t := Sample(k, dx);
      SamplePrevious(k, dx);
      var (low, high) := Bisect(outside, t - dx, t, iterations);
      Some(Hit(k, low, high))
  }

  /** The ray's length after the update: unchanged without a hit, otherwise
      the distance from the car centre to the refined end point. */
  function RayLength(previous: real, hit: Option<Hit>): (r: real)
    ensures hit.None? ==> r == previous
    ensures hit.Some? ==> 0.0 <= r && (r == hit.value.high || r == -hit.value.high)
  {
    match hit
    case None => previous
    case Some(h) => Abs(h.high)
  }

  /** The march over every ray of the scan, `outsideAlong[i]` being the
      `is_outside` test along ray `i`. */
  function UpdateRays(previous: seq<real>, outsideAlong: seq<real -> bool>, cfg: RayConfig): (r: seq<real>)
    requires |previous| == |outsideAlong| && 0.0 < cfg.dx
    ensures |r| == |previous|
    ensures forall i :: 0 <= i < |r| ==>
              (forall j: nat :: Sample(j, cfg.dx) < cfg.maxRayLength ==> !outsideAlong[i](Sample(j, cfg.dx)))
              ==> r[i] == previous[i]
    ensures forall i :: 0 <= i < |r| ==>
              var hit := CastRay(outsideAlong[i], cfg.maxRayLength, cfg.dx, cfg.iterations);
              hit.Some? ==> outsideAlong[i](hit.value.high) && 0.0 <= r[i] && r[i] == Abs(hit.value.high)
  {
    seq(|previous|, i requires 0 <= i < |previous| =>
      RayLength(previous[i], CastRay(outsideAlong[i], cfg.maxRayLength, cfg.dx, cfg.iterations)))
  }

  /** With the defaults (step 0.1, ten rounds) a hit is pinned down to a
      bracket of width 0.1 / 1024 at most 0.1 before the first outside step. */
  lemma DefaultPrecision(outside: real -> bool)
    ensures var r := CastRay(outside, DefaultRayConfig.maxRayLength, DefaultRayConfig.dx,
                             DefaultRayConfig.iterations);
            r.Some? ==> r.value.high - r.value.low == 0.1 / 1024.0
  {
    var r := CastRay(outside, 20.0, 0.1, 10);
    assert Pow2(10) == 1024.0 by {
      assert Pow2(2) == 4.0;
      assert Pow2(4) == 4.0 * Pow2(2);
      assert Pow2(6) == 4.0 * Pow2(4);
      assert Pow2(8) == 4.0 * Pow2(6);
      assert Pow2(10) == 4.0 * Pow2(8);
    }
  }
}
